=== FILE: README.md ===
# NI660X counter controller: a Dafny model of its acquisition state machine

This project models `NI660XRPCCounterCtrl`. It is the Sardana counter/timer
controller that drives National Instruments 660x counter cards through a remote
counter service. Each Sardana lifecycle method becomes a pure transition over one
immutable controller record, `Counter.Ctrl`. The record is split into three parts:

- the configured channel names and the per-channel extra attributes;
- `Run`: the acquisition as `PrepareOne`, `LoadOne`, `PreStartOne` and `StartAll` set it up. This covers the armed channels, the sample count, sub-scan mode, the high time, the first-start flag and the stop flag.
- the last index every armed channel has produced (`newIndexReady`), and `Progress`, how far each armed channel has been read. `Progress` holds the read cursor (`_last_index_read`) and the position-capture reference count (`_first_encoder`).

The remote counter service is an oracle that the caller passes in:

- `Remote.Samples` holds the acquisition buffer. `get_channel_data(name, lo, hi)` is `Remote.Fetch`: the samples of the half-open range `[lo, hi)`.
- `Remote.Completion` answers `is_channel_done`.
- `ReadAll` receives the `get_samples_readies` answers for the armed channels, in order.
- `StartAll` and `AbortAll` do not call the service. They return the commands they would send (`Remote.Call`) as a trace.

Position capture (module `Position`) works in two steps:

- It subtracts a reference count from the fetched counts.
- It applies the channel's formula, with `pos` bound to the displacement and `start` to the start offset.

The formula is a small arithmetic expression (`Position.Expr`) instead of evaluated
Python text. Formulas outside that integer grammar are not modelled (see "## Left out"). A formula fails when its text cannot be evaluated at all (`Malformed`, a syntax error say) or when it uses a name other than `pos` and `start`.
When it fails, the read delivers the bare displacements.

Failures the source raises as exceptions are modelled as values of `Counter.Error`:

- `ValueError` for an unsupported synchronization mode;
- `IndexError` for an axis outside the channel list;
- `KeyError` for a channel that was never armed or never added, or that has no reference count;
- `TypeError` or `AttributeError` from `len`/`tolist` when a capture formula gives a single number instead of one value per sample (lines 197, 199): `ScalarFormulaResult`.

When a call has already changed state before it fails, it returns the changed state
together with the error (`Outcome`, `Reading`).

Modules:

- `wrappers.dfy`: `Option` and `Result`.
- `remote.dfy`: the service oracle, the command trace and `Fetch`.
- `position.dfy`: formulas and the position transform.
- `counter.dfy`: the controller record and one function per lifecycle method.
- `properties.dfy`: properties that relate several calls: configuration, the first-start guard, the read protocol over successive polls, stop and status, and extra attributes.

## Model

| member | source | states |
|---|---|---|
| `Counter.Init` | ni660x/sardana/ctrl/ni660x_counter.py:59-73 | A new controller has the given channel list, nothing armed, empty cursors, reference counts and attributes, ready index -1, zero samples, and every flag lowered. |
| `Counter.ChannelName` | ni660x/sardana/ctrl/ni660x_counter.py:84 | `channels_names[axis-1]` with Python indexing: defined exactly when `-len < axis <= len`; for `1 <= axis <= len` it is the `axis`-th name, and for `-len < axis <= 0` it is `names[len + axis - 1]`, counted from the end; any result is one of the names. |
| `Counter.Lower` | ni660x/sardana/ctrl/ni660x_counter.py:204 | `parameter.lower()`: same length, no upper-case ASCII letter left, and each character either kept or, when it is an upper-case ASCII letter, mapped to its lower-case letter. |
| `Counter.Lookup` | ni660x/sardana/ctrl/ni660x_counter.py:206-207 | `config[key]`: a value exactly for the three attribute keys, and `None` for any other key. |
| `Counter.AddDevice` | ni660x/sardana/ctrl/ni660x_counter.py:83-89 | Fails with `NoSuchAxis` exactly when the axis names no channel; otherwise installs the defaults (no capture, start 0, formula `start + pos`) for that channel and changes no other channel and no other attribute. |
| `Counter.Store` | ni660x/sardana/ctrl/ni660x_counter.py:212-213 | Writing a known key makes it read back the written value, and every other key reads as before. |
| `Counter.GetAxisExtraPar` | ni660x/sardana/ctrl/ni660x_counter.py:202-207 | Fails for an unknown axis or a channel never added. Otherwise it succeeds, with a value exactly when the lower-cased name is one of the three attribute keys. That value is the channel's stored capture flag, start offset or formula, whichever the key names. |
| `Counter.SetAxisExtraPar` | ni660x/sardana/ctrl/ni660x_counter.py:209-213 | Fails for an unknown axis or a channel never added. An unknown lower-cased name changes nothing. A known one makes that attribute of that channel read back the written value. The channel's other attributes read as before, and every other channel and field is unchanged. |
| `Counter.Draining` | ni660x/sardana/ctrl/ni660x_counter.py:99-101 | Outside sub-scan mode, with several samples per burst, some armed channel's cursor is short of the last sample. |
| `Counter.StateOne` | ni660x/sardana/ctrl/ni660x_counter.py:91-108 | Fails only for an unknown axis. Moving exactly when no stop was requested and either the card is still counting or some cursor is short of the last of several samples in a single burst. On exactly with the ready message. The acquiring message exactly when not stopped and the card is not done. The "finished but acquiring" message exactly when not stopped, the card is done and samples remain to be read. |
| `Counter.PrepareOne` | ni660x/sardana/ctrl/ni660x_counter.py:110-127 | Always clears armed channels, cursors and reference counts, lowers the start and stop flags and stores the high time; fails exactly for a mode outside the three hardware modes, keeping mode and sample count; otherwise sub-scan exactly when there are several starts, keeping the sample count then and taking the repetitions otherwise. |
| `Counter.LoadOne` | ni660x/sardana/ctrl/ni660x_counter.py:129-135 | Outside sub-scan mode nothing changes; in sub-scan mode the cursors are cleared, the sample count becomes 1 and the high time is replaced, and nothing else changes. |
| `Counter.PreStartOne` | ni660x/sardana/ctrl/ni660x_counter.py:137-145 | After the first start of a single burst it changes nothing; otherwise it fails only for an unknown axis, rewinds that channel's cursor to -1, appends the channel to the armed list only before the first start, and changes nothing else. |
| `Counter.StartAll` | ni660x/sardana/ctrl/ni660x_counter.py:147-157 | Raises the first-start flag and nothing else. The first start sends exactly enable, stop, start, in that order. Each later sub-scan start sends exactly stop, start. After a single burst has started it sends nothing. Every start asks for the current sample count and high time, and every command names the armed channels. |
| `Counter.AbortAll` | ni660x/sardana/ctrl/ni660x_counter.py:219-221 | Sends one stop of the armed channels and raises the stop flag, changing nothing else. |
| `Counter.StopAll` | ni660x/sardana/ctrl/ni660x_counter.py:223-224 | Stopping is aborting. |
| `Counter.Min` | ni660x/sardana/ctrl/ni660x_counter.py:163 | `min` of the readiness answers; `Counter.MinIsLeast` proves it is the least of them and one of them. |
| `Counter.MinIsLeast` | ni660x/sardana/ctrl/ni660x_counter.py:163 | The minimum of the readiness answers is at most each of them and equal to one of them. |
| `Counter.ReadAll` | ni660x/sardana/ctrl/ni660x_counter.py:159-164 | Changes only the ready index, which is below every armed channel's ready count and equal to one of them minus 1. |
| `Counter.Deliver` | ni660x/sardana/ctrl/ni660x_counter.py:196-199 | Returns the values it is given. Without one sample per start it advances the channel's cursor by their number. It changes no other cursor and nothing else. |
| `Counter.ReadFresh` | ni660x/sardana/ctrl/ni660x_counter.py:180-199 | With the cursor behind the ready index. A channel never added fails with no change. Without capture, the read delivers exactly the samples after the cursor up to the ready index. With capture, the first fetched count becomes the reference when the cursor is rewound. A missing reference fails. Otherwise the read delivers the `Transform` of the fetched counts, or fails when the formula gives a single number. A successful read moves the cursor to the ready index, unless one sample per start is read, when it stays. Nothing else changes, and no other channel. |
| `Counter.ReadOne` | ni660x/sardana/ctrl/ni660x_counter.py:166-199 | An unknown axis or an unarmed channel fails without a change. In sub-scan mode, a cursor equal to the ready index re-reads that one sample and changes nothing. Otherwise a cursor at or past the ready index reads nothing and changes nothing. A cursor behind it reads as `ReadFresh` says. No call changes another channel's cursor or reference count, or anything outside the read progress. |
| `Remote.Fetch` | ni660x/sardana/ctrl/ni660x_counter.py:180-181 | `get_channel_data(name, lo, hi)` has `hi - lo` elements, element `i` being sample `lo + i` of the channel. |
| `Remote.FetchAdjacent` | ni660x/sardana/ctrl/ni660x_counter.py:180-181 | Fetching `[a, b)` and then `[b, c)` yields exactly the fetch of `[a, c)`. |
| `Position.Eval` | ni660x/sardana/ctrl/ni660x_counter.py:192 | `eval` of the formula with `pos` and `start` bound: it yields a value only for an expression whose every name is `pos` or `start`. |
| `Position.EvalDefinedIffClosed` | ni660x/sardana/ctrl/ni660x_counter.py:191-195 | Evaluating a formula fails exactly when it uses a name other than `pos` and `start`, whatever their values. |
| `Position.Displace` | ni660x/sardana/ctrl/ni660x_counter.py:187-188 | One displacement per count, each count minus the reference. |
| `Position.Apply` | ni660x/sardana/ctrl/ni660x_counter.py:189-192 | The formula applies exactly when it parses and uses only `pos` and `start`, and then gives one value per displacement, each the formula's value at that displacement. |
| `Position.Transform` | ni660x/sardana/ctrl/ni660x_counter.py:184-197 | The read's positions: one per fetched count. They are the displacements when the formula fails, and the formula's value at each displacement otherwise. There is no sequence exactly when the formula evaluates but never mentions `pos`. |
| `CounterProperties.PrepareForgetsAcquisition` | ni660x/sardana/ctrl/ni660x_counter.py:110-127 | Two controllers that agree on channel list, attributes, ready index, sample count and mode cannot be told apart after PrepareOne: the previous acquisition is forgotten. |
| `CounterProperties.PrepareIdempotent` | ni660x/sardana/ctrl/ni660x_counter.py:110-127 | Configuring twice with the same arguments is configuring once. |
| `CounterProperties.SampleCountPerMode` | ni660x/sardana/ctrl/ni660x_counter.py:123-135 | After PrepareOne and LoadOne in an accepted mode, several starts give sub-scan mode with one sample per start, cleared cursors and the load's high time; a single start gives a burst of `repetitions` samples that LoadOne leaves alone. |
| `CounterProperties.BurstStartsOnce` | ni660x/sardana/ctrl/ni660x_counter.py:137-157 | Outside sub-scan mode, after StartAll a second StartAll issues no command and PreStartOne changes nothing. |
| `CounterProperties.SubScanRestarts` | ni660x/sardana/ctrl/ni660x_counter.py:147-157 | In sub-scan mode every StartAll after the first issues exactly a stop and a start, and re-arming does not register a channel twice. |
| `CounterProperties.ArmingRegisters` | ni660x/sardana/ctrl/ni660x_counter.py:141-145 | Before the first start, arming an axis succeeds, appends its channel to the armed list and rewinds its cursor. |
| `CounterProperties.ReadOneFetchesNewRange` | ni660x/sardana/ctrl/ni660x_counter.py:177-199 | A read without sub-scan or capture returns exactly the samples after the cursor up to the ready index (nothing, with no change, when the cursor is not behind), and moves only that channel's cursor, to the ready index unless one sample per start is read. |
| `CounterProperties.StaleReadIsEmpty` | ni660x/sardana/ctrl/ni660x_counter.py:177-178 | Outside sub-scan mode, with several samples expected, reading again without a new poll returns nothing and changes nothing. |
| `CounterProperties.SubScanReadRepeats` | ni660x/sardana/ctrl/ni660x_counter.py:172-197 | In sub-scan mode with one sample per start, a successful read leaves the cursors alone, so reading again without a new start returns the same result. |
| `CounterProperties.OneSampleBurstRepeats` | ni660x/sardana/ctrl/ni660x_counter.py:180-199 | In a single burst of one sample (line 127 sets the sample count) a successful read leaves every cursor where it was, so reading again returns the same result and state. |
| `CounterProperties.SubScanDeliversOneSample` | ni660x/sardana/ctrl/ni660x_counter.py:172-181 | The first sub-scan read after arming, once the card has produced sample 0, delivers exactly that sample, and the cursor stays rewound. |
| `CounterProperties.SubScanCaptureIsStart` | ni660x/sardana/ctrl/ni660x_counter.py:184-192 | In sub-scan mode with position capture, each read takes its one sample as the new reference count. It therefore delivers the formula at displacement 0, whatever the counter read, and the cursor stays at -1. |
| `CounterProperties.FirstReadCapturesReference` | ni660x/sardana/ctrl/ni660x_counter.py:184-195 | The first capture read takes the first fetched count as the reference, and succeeds exactly when the formula does not evaluate to a single number. Its values are the formula over the displacements, or the displacements themselves when the formula fails. |
| `CounterProperties.LaterReadKeepsReference` | ni660x/sardana/ctrl/ni660x_counter.py:184-192 | Later capture reads keep the captured reference and measure from it. |
| `CounterProperties.DefaultFormulaExample` | ni660x/sardana/ctrl/ni660x_counter.py:188-195 | With reference 100 and start 10, counts 100, 102, 105 become 10, 12, 15 under `start + pos`, and 0, 2, 5 under a formula with an unbound name. |
| `CounterProperties.PlainPoll` | ni660x/sardana/ctrl/ni660x_counter.py:159-199 | With several samples per burst, one poll (ReadAll then a plain ReadOne) moves the cursor to the new ready index if that is further and returns exactly the samples between the old and new cursor. |
| `CounterProperties.FurthestStep` | ni660x/sardana/ctrl/ni660x_counter.py:163-164 | One more poll moves the furthest ready index so far to the new one when that is further. |
| `CounterProperties.PollAdvances` | ni660x/sardana/ctrl/ni660x_counter.py:159-197 | With several samples per burst, after any number of plain polls the read stays plain and the cursor is the furthest ready index reached so far. |
| `CounterProperties.PollExtends` | ni660x/sardana/ctrl/ni660x_counter.py:180-199 | With several samples per burst, one more plain poll extends what the earlier polls delivered by exactly the adjoining range. |
| `CounterProperties.PollRepeatedly` | ni660x/sardana/ctrl/ni660x_counter.py:159-199 | With several samples per burst, successive plain polls deliver contiguous, non-overlapping ranges: together exactly the samples after the first cursor up to the furthest ready index, each once and in order. |
| `CounterProperties.StopOverridesCard` | ni660x/sardana/ctrl/ni660x_counter.py:93-95 | After AbortAll or StopAll every axis reports On with the ready message, whatever the card says, and StopAll sends exactly one stop. |
| `CounterProperties.FullyReadBurstIsOn` | ni660x/sardana/ctrl/ni660x_counter.py:96-106 | Once the card is done and every cursor has reached the last sample, the axis reports On. |
| `CounterProperties.SetThenGet` | ni660x/sardana/ctrl/ni660x_counter.py:202-213 | Writing a known extra attribute and reading it back, under any capitalisation of its name, returns the value written. |
| `CounterProperties.SetThenGetAnyCase` | ni660x/sardana/ctrl/ni660x_counter.py:202-213 | A write under one spelling reads back under every spelling with the same lower-case form, and a read under any other name returns what it returned before the write. |
| `CounterProperties.AddedAxisDefaults` | ni660x/sardana/ctrl/ni660x_counter.py:83-89 | An added axis reads back no capture, start 0 and formula `start + pos`. |

## Behaviour worth knowing

- A rejected synchronization mode does not leave the previous session untouched. PrepareOne clears the armed channels, cursors and reference counts, stores the new high time (line 114) and lowers both flags (lines 111-116), and only then checks the mode (lines 118-120). `Counter.PrepareOne` returns that state with the error.
- An unknown extra-attribute name is not an error. A read of it returns `None` and a write to it is ignored (lines 206, 212).
- A failed read can still change state. A capture read whose formula gives a single number fails on `len`/`tolist` (lines 197, 199) after it has stored the reference count (line 186). `Counter.ReadFresh` returns that state with `ScalarFormulaResult`.
- In sub-scan mode, position capture takes the reference count again on every read. LoadOne clears the cursors (line 133), PreStartOne rewinds the cursor to -1 (line 142), and one sample per start never advances it (line 196). So lines 185-186 store each start's only sample as its own reference. Every sub-scan read then delivers the formula at displacement 0, which for the default formula is just `start`, whatever the counter read. `CounterProperties.SubScanCaptureIsStart` states this.
- A single burst of one sample (`repetitions == 1`, line 127) never advances the read cursor: line 196 moves it only when the sample count is not 1. Every plain read therefore fetches from sample 0 again, and successive polls deliver overlapping ranges. `CounterProperties.OneSampleBurstRepeats` states this; the poll properties are stated for several samples per burst for this reason.

## Left out

- The XML-RPC client and its per-call lock (`ni660x/rpc/client.py`), the connection set-up in the constructor (lines 75-81), logging, and `setup.py`: transport and packaging, replaced by the oracle parameters of module `Remote`.
- Failures of the remote service itself (a lost connection, a server exception): the model's oracles always answer.
- numpy array conversions and `tolist`: values are plain integer sequences.
- Floating point: the high time, `position_start` and sample values are integers, and so are the formula's results. Division is left out of `Position.Expr`: numpy division by zero does not raise, and its float result cannot be modelled in integers.
- Arbitrary Python in a formula: only integer literals, `pos`, `start`, negation, `+`, `-` and `*` are modelled. A formula outside that grammar that `eval` accepts has no `Formula` value and is not modelled. This includes decimal literals such as `start + pos * 0.001`, `/`, `**` and function calls, which the source evaluates into scaled positions. `Malformed` stands only for text whose `eval` raises, such as a syntax error.
- The Sardana property and attribute declaration tables (lines 17-57), apart from the defaults AddDevice installs. The unused attributes `_latency_time`, `_start_pos` and `_shape`. The axis and latency arguments of PrepareOne and LoadOne, and the repetitions argument of LoadOne, which the code ignores.
- `AbortOne` (lines 215-217) only logs.
- `Counter.Init`: the constructor never sets `_first_start`, so in the source a start or arm before the first PrepareOne raises `AttributeError`. The model starts with the flag lowered.
- `Counter.ReadAll`: requires at least one armed channel, where the source raises `ValueError` from the empty `min` (line 163).
- `Counter.SetAxisExtraPar`: requires the written value to have the declared type of a known attribute (a flag for `position_capture`, a number for `position_start`, a formula for `position_formula`). Sardana converts writes to that type before the controller sees them.
- `Counter.Lower`: lower-cases ASCII letters only. Python's `str.lower` also maps other Unicode letters.
- Python's builtins in a formula: `eval` (line 192) also binds the names of Python's builtins, such as `abs` or `__debug__`. The model treats every name other than `pos` and `start` as unbound, so such a formula falls back to the displacements. In the source, `pos + __debug__` evaluates to `pos + 1`. A bare builtin function evaluates without error and then fails on `len`/`tolist`.
- A sub-scan read while the card has produced nothing: with the cursor and ready index both at -1, the source asks the service for the range `[-1, 0)` (lines 173-174). What the service answers there is not part of this model. `Remote.Fetch` returns one oracle value for that range, the value at index -1.

=== FILE: counter.dfy ===
/**
  The NI660X counter/timer controller: the Sardana lifecycle methods as pure
  transitions over an immutable controller record.  Queries to the counter
  service are oracle parameters (module Remote); the commands that StartAll
  and AbortAll send are returned as a trace.
 */
module Counter {
  import opened Wrappers
  import opened Remote
  import opened Position

  /** Sardana's acquisition synchronization modes. */
  datatype Synchronization =
    | SoftwareTrigger | HardwareTrigger
    | SoftwareGate | HardwareGate
    | SoftwareStart | HardwareStart

  /** The modes the controller accepts: it only runs under external hardware timing. */
  const AllowedSync: set<Synchronization> := {HardwareGate, HardwareStart, HardwareTrigger}

  /** Per-channel extra attributes: position capture flag, start offset, formula. */
  datatype ChannelConfig = ChannelConfig(capture: bool, start: int, formula: Formula)

  /** What AddDevice installs for a channel. */
  const DefaultConfig: ChannelConfig := ChannelConfig(false, 0, DefaultFormula)

  /**
    The controller's mutable attributes, as one value.
    - `names`: the configured channel names, axis `a` is `names[a-1]`
    - `config`: the extra attributes of every added channel
    - `run`: the acquisition as configured and started
    - `newIndexReady`: the last index every armed channel has produced
    - `read`: how far each armed channel has been read
   */
  datatype Ctrl = Ctrl(
    names: seq<string>,
    config: map<string, ChannelConfig>,
    run: Run,
    newIndexReady: int,
    read: Progress)

  /**
    The acquisition as PrepareOne, LoadOne, PreStartOne and StartAll set it up.
    - `used`: the channels armed for the current acquisition
    - `samples`, `highTime`: what the next start asks the card for
    - `sscan`: sub-scan mode (several starts, one sample each)
    - `firstStart`: the card was started in this acquisition
    - `stop`: an abort or stop was requested
   */
  datatype Run = Run(
    used: seq<string>,
    samples: int,
    sscan: bool,
    highTime: int,
    firstStart: bool,
    stop: bool)

  /**
    Per armed channel, how far it has been read.
    - `cursor`: the index of the last sample read (-1: none yet)
    - `firstEncoder`: the reference count of position capture
   */
  datatype Progress = Progress(cursor: map<string, int>, firstEncoder: map<string, int>)

  /** Why a lifecycle call fails (the exception the source would raise). */
  datatype Error =
    | UnsupportedSynchronization   // ValueError of PrepareOne
    | NoSuchAxis(axis: int)        // IndexError on the channel name list
    | NoCursor(name: string)       // KeyError: channel never armed
    | NoConfig(name: string)       // KeyError: channel never added
    | NoReference(name: string)    // KeyError: no reference count captured
    | ScalarFormulaResult(name: string) // the formula gave one number for many samples

  /** A transition that may fail after it has already changed the state. */
  datatype Outcome = Outcome(ctrl: Ctrl, error: Option<Error>)

  /** The state after ReadOne and what it returned. */
  datatype Reading = Reading(ctrl: Ctrl, result: Result<seq<int>, Error>)

  /** The state after a command and the service calls it issued, in order. */
  datatype Issued = Issued(ctrl: Ctrl, calls: seq<Call>)

  datatype State = On | Moving
  datatype Status = Status(state: State, message: string)

  const ReadyMessage := "The system is ready to acquire"
  const AcquiringMessage := "The card(s) are acquiring"
  const DrainingMessage := "The card(s) finished but the controller is acquiring"

  /** The controller right after construction, for the given channel list. */
  function Init(names: seq<string>): (c: Ctrl)
    ensures c.names == names && c.run.used == []
    ensures c.read.cursor == map[] && c.read.firstEncoder == map[] && c.config == map[]
    ensures c.newIndexReady == -1 && c.run.samples == 0
    ensures !c.run.sscan && !c.run.firstStart && !c.run.stop
  {
    Ctrl(names, map[], Run([], 0, false, 0, false, false), -1, Progress(map[], map[]))
  }

  /**
    `names[axis - 1]` with Python's list indexing: an index below zero
    counts from the end, and anything outside `-|names| .. |names|-1` fails.
   */
  function ChannelName(names: seq<string>, axis: int): (r: Option<string>)
    ensures r.Some? <==> -|names| < axis <= |names|
    ensures 1 <= axis <= |names| ==> r == Some(names[axis - 1])
    ensures -|names| < axis <= 0 ==> r == Some(names[|names| + axis - 1])
    ensures r.Some? ==> r.value in names
  {
    var i := axis - 1;
    if 0 <= i < |names| then Some(names[i])
    else if -|names| <= i < 0 then Some(names[|names| + i])
    else None
  }

  // ---------------------------------------------------------------- channels

  /** Registers an axis with the default extra attributes. */
  function AddDevice(c: Ctrl, axis: int): (r: Result<Ctrl, Error>)
    ensures r.Failure? <==> ChannelName(c.names, axis).None?
    ensures r.Failure? ==> r.error == NoSuchAxis(axis)
    ensures r.Success? ==>
      var name := ChannelName(c.names, axis).value;
      && r.value == c.(config := r.value.config)
      && r.value.config.Keys == c.config.Keys + {name}
      && r.value.config[name] == DefaultConfig
      && forall n :: n in c.config && n != name ==> r.value.config[n] == c.config[n]
  {
    match ChannelName(c.names, axis)
    case None => Failure(NoSuchAxis(axis))
    case Some(name) => Success(c.(config := c.config[name := DefaultConfig]))
  }

  /** `str.lower()` on ASCII letters. */
  function Lower(s: string): (r: string)
    ensures |r| == |s|
    ensures forall i :: 0 <= i < |s| ==> !('A' <= r[i] <= 'Z')
    ensures forall i :: 0 <= i < |s| ==>
      r[i] == s[i] || ('A' <= s[i] <= 'Z' && r[i] as int == s[i] as int + 32)
  {
    seq(|s|, i requires 0 <= i < |s| => if 'A' <= s[i] <= 'Z' then (s[i] as int + 32) as char else s[i])
  }

  /** A name without upper-case letters is its own lower-case form. */
  lemma LowerKeeps(s: string)
    requires forall i :: 0 <= i < |s| ==> !('A' <= s[i] <= 'Z')
    ensures Lower(s) == s
  {
  }

  const CaptureKey := "position_capture"
  const StartKey := "position_start"
  const FormulaKey := "position_formula"

  /** The keys of a channel's extra-attribute dictionary. */
  const ExtraKeys: set<string> := {CaptureKey, StartKey, FormulaKey}

  /** A value of an extra attribute, typed as the attribute declares it. */
  datatype ParValue = Flag(b: bool) | Number(n: int) | Text(f: Formula)

  /** `config[key]` for a known key, `None` otherwise. */
  function Lookup(cfg: ChannelConfig, key: string): (r: Option<ParValue>)
    ensures r.Some? <==> key in ExtraKeys
  {
    if key == CaptureKey then Some(Flag(cfg.capture))
    else if key == StartKey then Some(Number(cfg.start))
    else if key == FormulaKey then Some(Text(cfg.formula))
    else None
  }

  /**
    The value has the type the framework converts writes of that attribute
    to; any value fits a key the controller does not know.
   */
  predicate Fits(key: string, v: ParValue) {
    (key == CaptureKey ==> v.Flag?) &&
    (key == StartKey ==> v.Number?) &&
    (key == FormulaKey ==> v.Text?)
  }

  /** `config[key] = v` for a known key; any other key leaves the entry as it is. */
  function Store(cfg: ChannelConfig, key: string, v: ParValue): (r: ChannelConfig)
    requires Fits(key, v)
    ensures key in ExtraKeys ==> Lookup(r, key) == Some(v)
    ensures forall k :: k != key ==> Lookup(r, k) == Lookup(cfg, k)
  {
    if key == CaptureKey then cfg.(capture := v.b)
    else if key == StartKey then cfg.(start := v.n)
    else if key == FormulaKey then cfg.(formula := v.f)
    else cfg
  }

  /** Reads an extra attribute; an unknown name reads as `None`, not as an error. */
  function GetAxisExtraPar(c: Ctrl, axis: int, parameter: string): (r: Result<Option<ParValue>, Error>)
    ensures ChannelName(c.names, axis).None? ==> r == Failure(NoSuchAxis(axis))
    ensures ChannelName(c.names, axis).Some? ==>
      var name := ChannelName(c.names, axis).value;
      && (name !in c.config ==> r == Failure(NoConfig(name)))
      && (name in c.config ==> r.Success? && (r.value.Some? <==> Lower(parameter) in ExtraKeys))
    ensures r.Success? ==>
      var cfg := c.config[ChannelName(c.names, axis).value];
      && (Lower(parameter) == CaptureKey ==> r.value == Some(Flag(cfg.capture)))
      && (Lower(parameter) == StartKey ==> r.value == Some(Number(cfg.start)))
      && (Lower(parameter) == FormulaKey ==> r.value == Some(Text(cfg.formula)))
  {
    match ChannelName(c.names, axis)
    case None => Failure(NoSuchAxis(axis))
    case Some(name) =>
      if name !in c.config then Failure(NoConfig(name))
      else Success(Lookup(c.config[name], Lower(parameter)))
  }

  /**
    Writes an extra attribute of one channel; an unknown name is ignored
    without an error.
   */
  function SetAxisExtraPar(c: Ctrl, axis: int, parameter: string, v: ParValue): (r: Result<Ctrl, Error>)
    requires Fits(Lower(parameter), v)
    ensures ChannelName(c.names, axis).None? ==> r == Failure(NoSuchAxis(axis))
    ensures ChannelName(c.names, axis).Some? ==>
      var name := ChannelName(c.names, axis).value;
      && (name !in c.config ==> r == Failure(NoConfig(name)))
      && (name in c.config ==> r.Success?)
    ensures r.Success? ==>
      var name := ChannelName(c.names, axis).value;
      && r.value == c.(config := r.value.config)
      && r.value.config.Keys == c.config.Keys
      && (Lower(parameter) !in ExtraKeys ==> r.value == c)
      && (Lower(parameter) in ExtraKeys ==> Lookup(r.value.config[name], Lower(parameter)) == Some(v))
      && (forall k :: k != Lower(parameter) ==> Lookup(r.value.config[name], k) == Lookup(c.config[name], k))
      && forall n :: n in c.config && n != name ==> r.value.config[n] == c.config[n]
  {
    match ChannelName(c.names, axis)
    case None => Failure(NoSuchAxis(axis))
    case Some(name) =>
      if name !in c.config then Failure(NoConfig(name))
      else
        var key := Lower(parameter);
        if key !in ExtraKeys then Success(c)
        else Success(c.(config := c.config[name := Store(c.config[name], key, v)]))
  }

  // ---------------------------------------------------------------- status

  /** Some armed channel has not yet been read up to the last of several samples of one burst. */
  predicate Draining(c: Ctrl) {
    !c.run.sscan && c.run.samples > 1 && exists n :: n in c.read.cursor && c.read.cursor[n] + 1 < c.run.samples
  }

  /**
    The axis status, with a fixed priority: a requested stop wins, then a
    card still counting, then samples not yet read.
   */
  function StateOne(c: Ctrl, axis: int, done: Completion): (r: Result<Status, Error>)
    ensures r.Failure? <==> ChannelName(c.names, axis).None?
    ensures r.Failure? ==> r.error == NoSuchAxis(axis)
    ensures r.Success? ==>
      var name := ChannelName(c.names, axis).value;
      && (r.value.state == Moving <==> !c.run.stop && (!done(name) || Draining(c)))
      && (r.value.state == On <==> r.value.message == ReadyMessage)
      && (r.value.message == AcquiringMessage <==> !c.run.stop && !done(name))
      && (r.value.message == DrainingMessage <==> !c.run.stop && done(name) && Draining(c))
  {
    match ChannelName(c.names, axis)
    case None => Failure(NoSuchAxis(axis))
    case Some(name) =>
      if c.run.stop then Success(Status(On, ReadyMessage))
      else if !done(name) then Success(Status(Moving, AcquiringMessage))
      else if Draining(c) then Success(Status(Moving, DrainingMessage))
      else Success(Status(On, ReadyMessage))
  }

  // ---------------------------------------------------------------- arming

  /**
    Configures a new acquisition.  The armed channels, cursors and
    reference counts are cleared and the start and stop flags lowered
    before the synchronization mode is checked, so a rejected mode still
    leaves them cleared.  Several starts select sub-scan mode, whose sample
    count LoadOne fixes; otherwise one burst of `repetitions` samples.
   */
  function PrepareOne(c: Ctrl, value: int, repetitions: int, nbStarts: int, sync: Synchronization): (r: Outcome)
    ensures r.ctrl.run.used == [] && r.ctrl.read.cursor == map[] && r.ctrl.read.firstEncoder == map[]
    ensures !r.ctrl.run.firstStart && !r.ctrl.run.stop && r.ctrl.run.highTime == value
    ensures r.ctrl.names == c.names && r.ctrl.config == c.config && r.ctrl.newIndexReady == c.newIndexReady
    ensures r.error.Some? <==> sync !in AllowedSync
    ensures r.error.Some? ==> r.error.value == UnsupportedSynchronization
    ensures r.error.Some? ==> r.ctrl.run.sscan == c.run.sscan && r.ctrl.run.samples == c.run.samples
    ensures r.error.None? ==> (r.ctrl.run.sscan <==> nbStarts > 1)
    ensures r.error.None? && nbStarts > 1 ==> r.ctrl.run.samples == c.run.samples
    ensures r.error.None? && nbStarts <= 1 ==> r.ctrl.run.samples == repetitions
  {
    var cleared := c.(run := c.run.(used := [], highTime := value, firstStart := false, stop := false),
                      read := Progress(map[], map[]));
    if sync !in AllowedSync then Outcome(cleared, Some(UnsupportedSynchronization))
    else if nbStarts > 1 then Outcome(cleared.(run := cleared.run.(sscan := true)), None)
    else Outcome(cleared.(run := cleared.run.(sscan := false, samples := repetitions)), None)
  }

  /** Sets up one sub-scan: cursors cleared, one sample, new high time; nothing outside sub-scan mode. */
  function LoadOne(c: Ctrl, value: int): (r: Ctrl)
    ensures !c.run.sscan ==> r == c
    ensures c.run.sscan ==> r.read.cursor == map[] && r.run.samples == 1 && r.run.highTime == value
    ensures c.run.sscan ==> r == c.(run := c.run.(samples := 1, highTime := r.run.highTime), read := c.read.(cursor := map[]))
  {
    if !c.run.sscan then c
    else c.(run := c.run.(samples := 1, highTime := value), read := c.read.(cursor := map[]))
  }

  /**
    Arms one axis: resets its cursor and, before the first start only,
    appends it to the armed channels.  Once a single burst has started it
    changes nothing.
   */
  function PreStartOne(c: Ctrl, axis: int): (r: Result<Ctrl, Error>)
    ensures !c.run.sscan && c.run.firstStart ==> r == Success(c)
    ensures (c.run.sscan || !c.run.firstStart) ==> (r.Failure? <==> ChannelName(c.names, axis).None?)
    ensures r.Failure? ==> r.error == NoSuchAxis(axis)
    ensures (c.run.sscan || !c.run.firstStart) && r.Success? ==>
      var name := ChannelName(c.names, axis).value;
      && r.value.read.cursor == c.read.cursor[name := -1]
      && r.value.run.used == (if c.run.firstStart then c.run.used else c.run.used + [name])
      && r.value == c.(run := c.run.(used := r.value.run.used), read := c.read.(cursor := r.value.read.cursor))
  {
    if !c.run.sscan && c.run.firstStart then Success(c)
    else
      match ChannelName(c.names, axis)
      case None => Failure(NoSuchAxis(axis))
      case Some(name) =>
        var armed := c.(read := c.read.(cursor := c.read.cursor[name := -1]));
        if c.run.firstStart then Success(armed) else Success(armed.(run := armed.run.(used := c.run.used + [name])))
  }

  /**
    Starts the card.  Before the first start the armed channels are enabled;
    then, unless a single burst is already running, every start is a stop
    followed by a start of `samples` samples of `highTime`.
   */
  function StartAll(c: Ctrl): (r: Issued)
    ensures r.ctrl == c.(run := c.run.(firstStart := true))
    ensures SetChannelsEnabled(c.run.used, true) in r.calls <==> !c.run.firstStart
    ensures (exists i :: 0 <= i < |r.calls| && r.calls[i].StartChannels?) <==> c.run.sscan || !c.run.firstStart
    ensures forall i :: 0 <= i < |r.calls| && r.calls[i].StartChannels? ==>
      && r.calls[i] == StartChannels(c.run.used, c.run.samples, c.run.highTime)
      && 0 < i && r.calls[i - 1] == StopChannels(c.run.used)
    ensures forall i :: 0 <= i < |r.calls| ==> r.calls[i].channels == c.run.used
    ensures !c.run.firstStart ==>
      r.calls == [SetChannelsEnabled(c.run.used, true), StopChannels(c.run.used),
                  StartChannels(c.run.used, c.run.samples, c.run.highTime)]
    ensures c.run.firstStart && c.run.sscan ==>
      r.calls == [StopChannels(c.run.used), StartChannels(c.run.used, c.run.samples, c.run.highTime)]
    ensures c.run.firstStart && !c.run.sscan ==> r.calls == []
  {
    var enable := if !c.run.firstStart then [SetChannelsEnabled(c.run.used, true)] else [];
    if !c.run.sscan && c.run.firstStart then Issued(c, enable)
    else
      var calls := enable + [StopChannels(c.run.used), StartChannels(c.run.used, c.run.samples, c.run.highTime)];
      assert calls[|calls| - 1].StartChannels?;
      Issued(c.(run := c.run.(firstStart := true)), calls)
  }

  /** Stops the armed channels and records that a stop was requested. */
  function AbortAll(c: Ctrl): (r: Issued)
    ensures r.calls == [StopChannels(c.run.used)]
    ensures r.ctrl.run.stop && r.ctrl == c.(run := c.run.(stop := true))
  {
    Issued(c.(run := c.run.(stop := true)), [StopChannels(c.run.used)])
  }

  /** Stopping is aborting. */
  function StopAll(c: Ctrl): (r: Issued)
    ensures r == AbortAll(c)
  {
    AbortAll(c)
  }

  // ---------------------------------------------------------------- reading

  /** The smallest of a non-empty list of sample counts. */
  function Min(counts: seq<int>): int
    requires |counts| > 0
  {
    if |counts| == 1 then counts[0]
    else
      var rest := Min(counts[..|counts| - 1]);
      if counts[|counts| - 1] <= rest then counts[|counts| - 1] else rest
  }

  /** Min is a lower bound of the list and is one of its elements. */
  lemma {:induction false} MinIsLeast(counts: seq<int>)
    requires |counts| > 0
    ensures forall i :: 0 <= i < |counts| ==> Min(counts) <= counts[i]
    ensures exists i :: 0 <= i < |counts| && Min(counts) == counts[i]
  {
    if |counts| == 1 {
      assert Min(counts) == counts[0];
    } else {
      var init, last := counts[..|counts| - 1], counts[|counts| - 1];
      MinIsLeast(init);
      assert forall i :: 0 <= i < |init| ==> init[i] == counts[i];
      var j :| 0 <= j < |init| && Min(init) == init[j];
      if last <= Min(init) {
        assert Min(counts) == counts[|counts| - 1];
      } else {
        assert Min(counts) == counts[j];
      }
    }
  }

  /**
    Polls readiness.  `counts[i]` is the service's `get_samples_readies`
    answer for the `i`-th armed channel; the ready index is the last index
    every armed channel has produced.  Taking the minimum of an empty list
    fails, so some channel must be armed.
   */
  function ReadAll(c: Ctrl, counts: seq<int>): (r: Ctrl)
    requires |counts| == |c.run.used| && |c.run.used| > 0
    ensures r == c.(newIndexReady := r.newIndexReady)
    ensures forall i :: 0 <= i < |counts| ==> r.newIndexReady < counts[i]
    ensures exists i :: 0 <= i < |counts| && r.newIndexReady == counts[i] - 1
  {
    MinIsLeast(counts);
    c.(newIndexReady := Min(counts) - 1)
  }

  /** Delivers `values`, advancing the cursor by their number unless one sample per start is read. */
  function Deliver(c: Ctrl, name: string, values: seq<int>): (r: Reading)
    requires name in c.read.cursor
    ensures r.result == Success(values)
    ensures r.ctrl == c.(read := r.ctrl.read) && r.ctrl.read.firstEncoder == c.read.firstEncoder
    ensures r.ctrl.read.cursor.Keys == c.read.cursor.Keys
    ensures forall n :: n in c.read.cursor && n != name ==> r.ctrl.read.cursor[n] == c.read.cursor[n]
    ensures r.ctrl.read.cursor[name] - c.read.cursor[name] == if c.run.samples != 1 then |values| else 0
  {
    var cursor := if c.run.samples != 1 then c.read.cursor[name := c.read.cursor[name] + |values|] else c.read.cursor;
    Reading(c.(read := c.read.(cursor := cursor)), Success(values))
  }

  /**
    Reads the samples of `name` after its cursor up to the ready index,
    turning them into positions when the channel captures positions: on a
    read from a rewound cursor (-1) the first fetched count becomes the
    reference count.  In sub-scan mode the cursor is rewound on every read.
   */
  function ReadFresh(c: Ctrl, name: string, data: Samples): (r: Reading)
    requires name in c.read.cursor && c.newIndexReady > c.read.cursor[name]
    ensures r.ctrl == c.(read := r.ctrl.read)
    ensures r.ctrl.read.cursor.Keys == c.read.cursor.Keys
    ensures forall n :: n in c.read.cursor && n != name ==> r.ctrl.read.cursor[n] == c.read.cursor[n]
    ensures forall n :: n != name ==> (n in r.ctrl.read.firstEncoder <==> n in c.read.firstEncoder)
    ensures forall n :: n in c.read.firstEncoder && n != name ==> r.ctrl.read.firstEncoder[n] == c.read.firstEncoder[n]
    ensures r.result.Success? ==> |r.result.value| == c.newIndexReady - c.read.cursor[name]
    ensures r.result.Success? ==> r.ctrl.read.cursor[name] == if c.run.samples != 1 then c.newIndexReady else c.read.cursor[name]
    ensures r.result.Failure? ==> r.ctrl.read.cursor == c.read.cursor
    ensures name !in c.config ==> r == Reading(c, Failure(NoConfig(name)))
    ensures name in c.config && !c.config[name].capture ==>
      && r.ctrl.read.firstEncoder == c.read.firstEncoder
      && r.result == Success(Fetch(data, name, c.read.cursor[name] + 1, c.newIndexReady + 1))
    ensures name in c.config && c.config[name].capture ==>
      && r.ctrl.read.firstEncoder ==
           (if c.read.cursor[name] == -1 then c.read.firstEncoder[name := data(name, 0)] else c.read.firstEncoder)
      && (name !in r.ctrl.read.firstEncoder ==> r.result == Failure(NoReference(name)))
      && (name in r.ctrl.read.firstEncoder ==>
            var cfg := c.config[name];
            var raw := Fetch(data, name, c.read.cursor[name] + 1, c.newIndexReady + 1);
            var t := Transform(cfg.formula, raw, r.ctrl.read.firstEncoder[name], cfg.start);
            && (t.None? ==> r.result == Failure(ScalarFormulaResult(name)))
            && (t.Some? ==> r.result == Success(t.value)))
  {
    var last := c.read.cursor[name];
    var raw := Fetch(data, name, last + 1, c.newIndexReady + 1);
    if name !in c.config then Reading(c, Failure(NoConfig(name)))
    else
      var cfg := c.config[name];
      if !cfg.capture then Deliver(c, name, raw)
      else
        var encoder := if last == -1 then c.read.firstEncoder[name := raw[0]] else c.read.firstEncoder;
        var captured := c.(read := c.read.(firstEncoder := encoder));
        if name !in encoder then Reading(captured, Failure(NoReference(name)))
        else
          match Transform(cfg.formula, raw, encoder[name], cfg.start)
          case None => Reading(captured, Failure(ScalarFormulaResult(name)))
          case Some(positions) => Deliver(captured, name, positions)
  }

  /**
    Reads the new samples of one axis.  In sub-scan mode, a cursor equal to
    the ready index re-reads that one sample; otherwise a cursor at or past
    the ready index reads nothing, and a cursor behind it reads as ReadFresh
    says.
   */
  function ReadOne(c: Ctrl, axis: int, data: Samples): (r: Reading)
    ensures r.ctrl == c.(read := r.ctrl.read)
    ensures r.ctrl.read.cursor.Keys == c.read.cursor.Keys
    ensures ChannelName(c.names, axis).None? ==> r == Reading(c, Failure(NoSuchAxis(axis)))
    ensures ChannelName(c.names, axis).Some? ==>
      var name := ChannelName(c.names, axis).value;
      && (name !in c.read.cursor ==> r == Reading(c, Failure(NoCursor(name))))
      && (forall n :: n in c.read.cursor && n != name ==> r.ctrl.read.cursor[n] == c.read.cursor[n])
      && (forall n :: n != name ==> (n in r.ctrl.read.firstEncoder <==> n in c.read.firstEncoder))
      && (forall n :: n in c.read.firstEncoder && n != name ==> r.ctrl.read.firstEncoder[n] == c.read.firstEncoder[n])
    ensures ChannelName(c.names, axis).Some? && ChannelName(c.names, axis).value in c.read.cursor ==>
      var name := ChannelName(c.names, axis).value;
      var last := c.read.cursor[name];
      && (c.run.sscan && c.newIndexReady == last ==>
            r == Reading(c, Success(Fetch(data, name, last, last + 1))))
      && (!(c.run.sscan && c.newIndexReady == last) && c.newIndexReady <= last ==>
            r == Reading(c, Success([])))
      && (c.newIndexReady > last ==> r == ReadFresh(c, name, data))
  {
    match ChannelName(c.names, axis)
    case None => Reading(c, Failure(NoSuchAxis(axis)))
    case Some(name) =>
      if name !in c.read.cursor then Reading(c, Failure(NoCursor(name)))
      else
        var last := c.read.cursor[name];
        if c.run.sscan && c.newIndexReady == last then
          Reading(c, Success(Fetch(data, name, last, c.newIndexReady + 1)))
        else if c.newIndexReady <= last then
          Reading(c, Success([]))
        else
          ReadFresh(c, name, data)
  }
}

=== FILE: position.dfy ===
/**
  Position capture: raw encoder counts become displacements from a reference
  count, then a user formula over the names `pos` and `start` turns each
  displacement into a position.  The formula is a restricted arithmetic
  expression instead of arbitrary evaluated text.
 */
module Position {
  import opened Wrappers

  /** Arithmetic over integer literals and named variables. */
  datatype Expr =
    | Lit(n: int)
    | Var(name: string)
    | Neg(e: Expr)
    | Add(l: Expr, r: Expr)
    | Sub(l: Expr, r: Expr)
    | Mul(l: Expr, r: Expr)

  /**
    The text of a formula: an expression of the modelled grammar, or text
    whose evaluation raises (a syntax error, say).
   */
  datatype Formula = Parsed(expr: Expr) | Malformed(text: string)

  /** `'start + pos'`, the formula every channel starts with. */
  const DefaultFormula: Formula := Parsed(Add(Var("start"), Var("pos")))

  /** Every name in `e` is one of the two bound names. */
  predicate Closed(e: Expr) {
    match e
    case Lit(_) => true
    case Var(x) => x == "pos" || x == "start"
    case Neg(a) => Closed(a)
    case Add(a, b) => Closed(a) && Closed(b)
    case Sub(a, b) => Closed(a) && Closed(b)
    case Mul(a, b) => Closed(a) && Closed(b)
  }

  /** `e` mentions `pos`, so evaluating it over a sequence yields one value per element. */
  predicate MentionsPos(e: Expr) {
    match e
    case Lit(_) => false
    case Var(x) => x == "pos"
    case Neg(a) => MentionsPos(a)
    case Add(a, b) => MentionsPos(a) || MentionsPos(b)
    case Sub(a, b) => MentionsPos(a) || MentionsPos(b)
    case Mul(a, b) => MentionsPos(a) || MentionsPos(b)
  }

  /**
    Evaluates `e` for one displacement; an unbound name is a failure.
    EvalDefinedIffClosed proves the converse: every closed expression evaluates.
   */
  function Eval(e: Expr, pos: int, start: int): (r: Option<int>)
    ensures r.Some? ==> Closed(e)
  {
    match e
    case Lit(n) => Some(n)
    case Var(x) =>
      if x == "pos" then Some(pos) else if x == "start" then Some(start) else None
    case Neg(a) =>
      var va := Eval(a, pos, start);
      if va.Some? then Some(-va.value) else None
    case Add(a, b) =>
      var va, vb := Eval(a, pos, start), Eval(b, pos, start);
      if va.Some? && vb.Some? then Some(va.value + vb.value) else None
    case Sub(a, b) =>
      var va, vb := Eval(a, pos, start), Eval(b, pos, start);
      if va.Some? && vb.Some? then Some(va.value - vb.value) else None
    case Mul(a, b) =>
      var va, vb := Eval(a, pos, start), Eval(b, pos, start);
      if va.Some? && vb.Some? then Some(va.value * vb.value) else None
  }

  /** Evaluation fails exactly on the expressions that use an unbound name, whatever the values. */
  lemma {:induction false} EvalDefinedIffClosed(e: Expr, pos: int, start: int)
    ensures Eval(e, pos, start).Some? <==> Closed(e)
  {
    match e
    case Lit(_) =>
    case Var(_) =>
    case Neg(a) => EvalDefinedIffClosed(a, pos, start);
    case Add(a, b) => EvalDefinedIffClosed(a, pos, start); EvalDefinedIffClosed(b, pos, start);
    case Sub(a, b) => EvalDefinedIffClosed(a, pos, start); EvalDefinedIffClosed(b, pos, start);
    case Mul(a, b) => EvalDefinedIffClosed(a, pos, start); EvalDefinedIffClosed(b, pos, start);
  }

  /** Subtracts the reference count from every raw count. */
  function Displace(raw: seq<int>, reference: int): (d: seq<int>)
    ensures |d| == |raw|
    ensures forall i :: 0 <= i < |raw| ==> d[i] + reference == raw[i]
  {
    seq(|raw|, i requires 0 <= i < |raw| => raw[i] - reference)
  }

  /**
    Applies a formula element-wise to the displacements; `None` when the
    formula does not parse or uses a name other than `pos` and `start`.
   */
  function Apply(f: Formula, pos: seq<int>, start: int): (r: Option<seq<int>>)
    ensures r.Some? <==> f.Parsed? && Closed(f.expr)
    ensures r.Some? ==> |r.value| == |pos|
    ensures r.Some? ==> forall i :: 0 <= i < |pos| ==> Eval(f.expr, pos[i], start) == Some(r.value[i])
  {
    if f.Malformed? || !Closed(f.expr) then None
    else
      assert forall i :: 0 <= i < |pos| ==> Eval(f.expr, pos[i], start).Some? by {
        forall i | 0 <= i < |pos| {
          EvalDefinedIffClosed(f.expr, pos[i], start);
        }
      }
      Some(seq(|pos|, i requires 0 <= i < |pos| => Eval(f.expr, pos[i], start).value))
  }

  /**
    The positions a read delivers for freshly fetched counts `raw`: the
    formula applied to the displacements, or the displacements themselves
    when the formula fails.  `None` when the formula evaluates but never
    mentions `pos`: it then yields a single number instead of one per
    sample, which the read cannot deliver.
   */
  function Transform(f: Formula, raw: seq<int>, reference: int, start: int): (r: Option<seq<int>>)
    ensures r.None? <==> f.Parsed? && Closed(f.expr) && !MentionsPos(f.expr)
    ensures r.Some? ==> |r.value| == |raw|
    ensures r.Some? && !(f.Parsed? && Closed(f.expr)) ==> r.value == Displace(raw, reference)
    ensures r.Some? && f.Parsed? && Closed(f.expr) ==>
      forall i :: 0 <= i < |raw| ==> Eval(f.expr, raw[i] - reference, start) == Some(r.value[i])
  {
    var pos := Displace(raw, reference);
    match Apply(f, pos, start)
    case None => Some(pos)
    case Some(values) => if MentionsPos(f.expr) then Some(values) else None
  }
}

=== FILE: properties.dfy ===
/**
  Properties that relate several lifecycle calls of the counter controller:
  what a configure cycle forgets, the first-start guard, the read protocol
  over successive polls, and how stop and status interact.
 */
module CounterProperties {
  import opened Wrappers
  import opened Remote
  import opened Position
  import opened Counter

  // ---------------------------------------------------------------- configure

  /**
    PrepareOne forgets the previous acquisition: two controllers that agree
    on the channel list, the extra attributes, the last ready index, the
    sample count and the mode are indistinguishable afterwards.
   */
  lemma PrepareForgetsAcquisition(c1: Ctrl, c2: Ctrl, value: int, repetitions: int, nbStarts: int, sync: Synchronization)
    requires c1.names == c2.names && c1.config == c2.config && c1.newIndexReady == c2.newIndexReady
    requires c1.run.samples == c2.run.samples && c1.run.sscan == c2.run.sscan
    ensures PrepareOne(c1, value, repetitions, nbStarts, sync) == PrepareOne(c2, value, repetitions, nbStarts, sync)
  {
  }

  /** Configuring twice with the same arguments is configuring once. */
  lemma PrepareIdempotent(c: Ctrl, value: int, repetitions: int, nbStarts: int, sync: Synchronization)
    ensures var p := PrepareOne(c, value, repetitions, nbStarts, sync);
      PrepareOne(p.ctrl, value, repetitions, nbStarts, sync) == p
  {
  }

  /**
    The sample count of an acquisition: one per sub-scan once LoadOne has
    run in sub-scan mode, and the requested repetitions for a single burst,
    which LoadOne leaves alone.
   */
  lemma SampleCountPerMode(c: Ctrl, value: int, repetitions: int, nbStarts: int, sync: Synchronization, loadValue: int)
    requires sync in AllowedSync
    ensures var p := PrepareOne(c, value, repetitions, nbStarts, sync).ctrl;
      var l := LoadOne(p, loadValue);
      && (nbStarts > 1 ==> l.run.sscan && l.run.samples == 1 && l.read.cursor == map[] && l.run.highTime == loadValue)
      && (nbStarts <= 1 ==> !l.run.sscan && l.run.samples == repetitions && l == p && l.run.highTime == value)
  {
  }

  // ---------------------------------------------------------------- starting

  /**
    A single burst is started once: after StartAll, a second StartAll issues
    no call and PreStartOne changes nothing, so re-arming does not
    re-register channels.
   */
  lemma BurstStartsOnce(c: Ctrl, axis: int)
    requires !c.run.sscan
    ensures var s := StartAll(c);
      && StartAll(s.ctrl) == Issued(s.ctrl, [])
      && PreStartOne(s.ctrl, axis) == Success(s.ctrl)
  {
  }

  /**
    Every sub-scan restarts the card: after the first start, each StartAll
    issues exactly a stop and a start, and PreStartOne resets the cursor
    without arming the channel a second time.
   */
  lemma SubScanRestarts(c: Ctrl, axis: int)
    requires c.run.sscan
    ensures var s := StartAll(c);
      && StartAll(s.ctrl).calls == [StopChannels(c.run.used), StartChannels(c.run.used, c.run.samples, c.run.highTime)]
      && (PreStartOne(s.ctrl, axis).Success? ==> PreStartOne(s.ctrl, axis).value.run.used == c.run.used)
  {
  }

  /** Before the first start, arming an axis registers its channel and rewinds its cursor. */
  lemma ArmingRegisters(c: Ctrl, axis: int)
    requires !c.run.firstStart && 1 <= axis <= |c.names|
    ensures var name := c.names[axis - 1];
      && PreStartOne(c, axis).Success?
      && PreStartOne(c, axis).value.run.used == c.run.used + [name]
      && PreStartOne(c, axis).value.read.cursor[name] == -1
  {
  }

  // ---------------------------------------------------------------- reading

  /** The conditions of a plain read of `axis`: a single burst, no position capture. */
  predicate PlainRead(c: Ctrl, axis: int, name: string) {
    && ChannelName(c.names, axis) == Some(name)
    && name in c.read.cursor && name in c.config && !c.config[name].capture
    && !c.run.sscan
  }

  /**
    A plain read returns exactly the samples after the cursor up to the
    ready index, or nothing when the cursor is not behind it; the cursor
    then sits at the ready index (when several samples are expected).
   */
  lemma ReadOneFetchesNewRange(c: Ctrl, axis: int, name: string, data: Samples)
    requires PlainRead(c, axis, name)
    ensures var r := ReadOne(c, axis, data);
      var last := c.read.cursor[name];
      && r.result.Success?
      && (c.newIndexReady <= last ==> r.result.value == [] && r.ctrl == c)
      && (c.newIndexReady > last ==>
            && r.result.value == Fetch(data, name, last + 1, c.newIndexReady + 1)
            && r.ctrl == c.(read := c.read.(cursor := c.read.cursor[name := if c.run.samples != 1 then c.newIndexReady else last])))
  {
  }

  /**
    Reading again without a new poll delivers nothing and changes nothing,
    outside sub-scan mode and whenever several samples are expected.
   */
  lemma StaleReadIsEmpty(c: Ctrl, axis: int, data: Samples)
    requires !c.run.sscan && c.run.samples != 1
    requires ReadOne(c, axis, data).result.Success?
    ensures var r := ReadOne(c, axis, data);
      ReadOne(r.ctrl, axis, data) == Reading(r.ctrl, Success([]))
  {
  }

  /**
    In sub-scan mode with one sample per start the cursor never moves, so
    reading again without a new start delivers the same samples again.
   */
  lemma SubScanReadRepeats(c: Ctrl, axis: int, data: Samples)
    requires c.run.sscan && c.run.samples == 1
    requires ReadOne(c, axis, data).result.Success?
    ensures var r := ReadOne(c, axis, data);
      && r.ctrl.read.cursor == c.read.cursor
      && ReadOne(r.ctrl, axis, data) == r
  {
  }

  /**
    A single burst of one sample never advances the cursor either: each read
    fetches the same range again and delivers the same values.
   */
  lemma OneSampleBurstRepeats(c: Ctrl, axis: int, data: Samples)
    requires !c.run.sscan && c.run.samples == 1
    requires ReadOne(c, axis, data).result.Success?
    ensures var r := ReadOne(c, axis, data);
      && r.ctrl.read.cursor == c.read.cursor
      && ReadOne(r.ctrl, axis, data) == r
  {
  }

  /**
    The first sub-scan read after arming, once the card has produced its
    sample: the read delivers exactly that sample and the cursor stays
    rewound.
   */
  lemma SubScanDeliversOneSample(c: Ctrl, axis: int, name: string, data: Samples)
    requires ChannelName(c.names, axis) == Some(name) && name in c.read.cursor && c.read.cursor[name] == -1
    requires name in c.config && !c.config[name].capture
    requires c.run.sscan && c.run.samples == 1 && c.newIndexReady == 0
    ensures var r := ReadOne(c, axis, data);
      && r.result == Success([data(name, 0)])
      && r.ctrl.read.cursor[name] == -1
  {
    assert Fetch(data, name, 0, 1) == [data(name, 0)];
  }

  /**
    In sub-scan mode the cursor is at -1 on every read, so position capture
    takes the reference again each time: the one sample of each start is its
    own reference, and the read delivers the formula at displacement 0.
   */
  lemma SubScanCaptureIsStart(c: Ctrl, axis: int, name: string, data: Samples, e: Expr)
    requires ChannelName(c.names, axis) == Some(name) && name in c.read.cursor && c.read.cursor[name] == -1
    requires name in c.config && c.config[name].capture && c.config[name].formula == Parsed(e)
    requires Closed(e) && MentionsPos(e)
    requires c.run.sscan && c.run.samples == 1 && c.newIndexReady == 0
    ensures var r := ReadOne(c, axis, data);
      && Eval(e, 0, c.config[name].start).Some?
      && r.result == Success([Eval(e, 0, c.config[name].start).value])
      && r.ctrl.read.firstEncoder == c.read.firstEncoder[name := data(name, 0)]
      && r.ctrl.read.cursor[name] == -1
  {
    var start := c.config[name].start;
    assert Fetch(data, name, 0, 1) == [data(name, 0)];
    EvalDefinedIffClosed(e, 0, start);
    var t := Transform(Parsed(e), [data(name, 0)], data(name, 0), start);
    assert t.Some? && |t.value| == 1;
    assert Eval(e, 0, start) == Some(t.value[0]);
    assert t.value == [Eval(e, 0, start).value];
  }

  /**
    Position capture on a read from a rewound cursor (the first read of a
    single burst): the first fetched
    count becomes the reference, and every sample is delivered as the
    formula of its displacement from that reference, or as the bare
    displacement when the formula fails.
   */
  lemma FirstReadCapturesReference(c: Ctrl, axis: int, name: string, data: Samples)
    requires ChannelName(c.names, axis) == Some(name) && name in c.read.cursor && c.read.cursor[name] == -1
    requires name in c.config && c.config[name].capture
    requires !c.run.sscan && c.newIndexReady >= 0
    ensures var r := ReadOne(c, axis, data);
      var cfg := c.config[name];
      var raw := Fetch(data, name, 0, c.newIndexReady + 1);
      && r.ctrl.read.firstEncoder == c.read.firstEncoder[name := data(name, 0)]
      && (r.result.Success? <==> !(cfg.formula.Parsed? && Closed(cfg.formula.expr) && !MentionsPos(cfg.formula.expr)))
      && (r.result.Success? ==> r.result.value == Transform(cfg.formula, raw, data(name, 0), cfg.start).value)
      && (r.result.Success? && !(cfg.formula.Parsed? && Closed(cfg.formula.expr)) ==>
            r.result.value == Displace(raw, data(name, 0)))
  {
  }

  /** Later reads measure from the reference the first read captured. */
  lemma LaterReadKeepsReference(c: Ctrl, axis: int, name: string, data: Samples)
    requires ChannelName(c.names, axis) == Some(name) && name in c.read.cursor && c.read.cursor[name] != -1
    requires name in c.config && c.config[name].capture && name in c.read.firstEncoder
    requires !c.run.sscan && c.newIndexReady > c.read.cursor[name]
    ensures var r := ReadOne(c, axis, data);
      var cfg := c.config[name];
      var raw := Fetch(data, name, c.read.cursor[name] + 1, c.newIndexReady + 1);
      && r.ctrl.read.firstEncoder == c.read.firstEncoder
      && (r.result.Success? ==> r.result.value == Transform(cfg.formula, raw, c.read.firstEncoder[name], cfg.start).value)
  {
  }

  /** The default formula `start + pos` shifts displacements by the start offset; an unbound name falls back to them. */
  lemma DefaultFormulaExample()
    ensures Transform(DefaultFormula, [100, 102, 105], 100, 10) == Some([10, 12, 15])
    ensures Transform(Parsed(Add(Var("offset"), Var("pos"))), [100, 102, 105], 100, 10) == Some([0, 2, 5])
  {
    var raw := [100, 102, 105];
    assert Closed(DefaultFormula.expr) && MentionsPos(DefaultFormula.expr);
    var t := Transform(DefaultFormula, raw, 100, 10).value;
    assert Eval(DefaultFormula.expr, raw[0] - 100, 10) == Some(t[0]);
    assert Eval(DefaultFormula.expr, raw[1] - 100, 10) == Some(t[1]);
    assert Eval(DefaultFormula.expr, raw[2] - 100, 10) == Some(t[2]);
    assert t == [10, 12, 15];
    var unbound := Parsed(Add(Var("offset"), Var("pos")));
    assert !Closed(unbound.expr);
    var d := Transform(unbound, raw, 100, 10).value;
    assert d == Displace(raw, 100);
    assert d[0] + 100 == raw[0] && d[1] + 100 == raw[1] && d[2] + 100 == raw[2];
    assert d == [0, 2, 5];
  }

  // ---------------------------------------------------------------- successive polls

  /** Every poll of `polls` holds one readiness answer per armed channel. */
  predicate Answers(polls: seq<seq<int>>, used: seq<string>) {
    forall k :: 0 <= k < |polls| ==> |polls[k]| == |used|
  }

  /** The furthest of a cursor and the ready indices of successive polls. */
  function Furthest(cursor: int, polls: seq<seq<int>>): (f: int)
    requires forall k :: 0 <= k < |polls| ==> |polls[k]| > 0
    ensures f >= cursor
    decreases |polls|
  {
    if polls == [] then cursor
    else
      var f := Furthest(cursor, polls[..|polls| - 1]);
      var ready := Min(polls[|polls| - 1]) - 1;
      if ready > f then ready else f
  }

  /** One plain poll: the read delivers the samples up to the ready index and the cursor follows. */
  lemma PlainPoll(c: Ctrl, axis: int, name: string, counts: seq<int>, data: Samples)
    requires |counts| == |c.run.used| > 0 && c.run.samples != 1
    requires PlainRead(c, axis, name)
    ensures PlainRead(ReadOne(ReadAll(c, counts), axis, data).ctrl, axis, name)
    ensures ReadOne(ReadAll(c, counts), axis, data).ctrl.run.used == c.run.used
    ensures ReadOne(ReadAll(c, counts), axis, data).ctrl.run.samples == c.run.samples
    ensures ReadOne(ReadAll(c, counts), axis, data).ctrl.read.cursor[name] ==
      if Min(counts) - 1 > c.read.cursor[name] then Min(counts) - 1 else c.read.cursor[name]
    ensures ReadOne(ReadAll(c, counts), axis, data).result ==
      Success(Fetch(data, name, c.read.cursor[name] + 1, ReadOne(ReadAll(c, counts), axis, data).ctrl.read.cursor[name] + 1))
  {
  }

  /** One more poll keeps the read plain and moves the cursor to the furthest ready index so far. */
  lemma PollAdvances(c: Ctrl, axis: int, name: string, polls: seq<seq<int>>, k: int, polled: Ctrl, data: Samples)
    requires PlainRead(c, axis, name) && |c.run.used| > 0 && c.run.samples != 1
    requires Answers(polls, c.run.used) && 0 <= k < |polls|
    requires PlainRead(polled, axis, name) && polled.run.used == c.run.used && polled.run.samples == c.run.samples
    requires polled.read.cursor[name] == Furthest(c.read.cursor[name], polls[..k])
    ensures var step := ReadOne(ReadAll(polled, polls[k]), axis, data);
      && PlainRead(step.ctrl, axis, name) && step.ctrl.run.used == c.run.used && step.ctrl.run.samples == c.run.samples
      && step.ctrl.read.cursor[name] == Furthest(c.read.cursor[name], polls[..k + 1])
  {
    PlainPoll(polled, axis, name, polls[k], data);
    FurthestStep(c.read.cursor[name], polls, k);
  }

  /** One more poll extends what the polls before it delivered by the range adjoining it. */
  lemma PollExtends(c: Ctrl, axis: int, name: string, polls: seq<seq<int>>, k: int,
                    polled: Ctrl, delivered: seq<int>, data: Samples)
    requires PlainRead(c, axis, name) && |c.run.used| > 0 && c.run.samples != 1
    requires Answers(polls, c.run.used) && 0 <= k < |polls|
    requires PlainRead(polled, axis, name) && polled.run.used == c.run.used && polled.run.samples == c.run.samples
    requires polled.read.cursor[name] == Furthest(c.read.cursor[name], polls[..k])
    requires delivered == Fetch(data, name, c.read.cursor[name] + 1, polled.read.cursor[name] + 1)
    ensures var step := ReadOne(ReadAll(polled, polls[k]), axis, data);
      && step.result.Success?
      && delivered + step.result.value == Fetch(data, name, c.read.cursor[name] + 1, step.ctrl.read.cursor[name] + 1)
  {
  }

  /** Polling once more moves the furthest index to the new ready index if that is further. */
  lemma FurthestStep(cursor: int, polls: seq<seq<int>>, k: int)
    requires forall j :: 0 <= j < |polls| ==> |polls[j]| > 0
    requires 0 <= k < |polls|
    ensures var before := Furthest(cursor, polls[..k]);
      var ready := Min(polls[k]) - 1;
      Furthest(cursor, polls[..k + 1]) == if ready > before then ready else before
  {
    assert polls[..k + 1][..k] == polls[..k];
  }

  /**
    The framework's polling loop over successive readiness snapshots, each
    poll a ReadAll followed by a plain ReadOne of one axis.  Together the
    reads deliver contiguous, non-overlapping ranges: exactly the samples
    after the initial cursor up to the furthest ready index, each once and
    in order, and the cursor ends at that index.
   */
  method PollRepeatedly(c: Ctrl, axis: int, name: string, polls: seq<seq<int>>, data: Samples)
    returns (final: Ctrl, delivered: seq<int>)
    requires |c.run.used| > 0 && c.run.samples != 1 && Answers(polls, c.run.used)
    requires PlainRead(c, axis, name)
    ensures PlainRead(final, axis, name) && final.run.used == c.run.used
    ensures final.read.cursor[name] == Furthest(c.read.cursor[name], polls)
    ensures delivered == Fetch(data, name, c.read.cursor[name] + 1, final.read.cursor[name] + 1)
  {
    final, delivered := c, [];
    var k := 0;
    while k < |polls|
      invariant 0 <= k <= |polls|
      invariant PlainRead(final, axis, name)
      invariant final.run.used == c.run.used && final.run.samples == c.run.samples
      invariant final.read.cursor[name] == Furthest(c.read.cursor[name], polls[..k])
      invariant delivered == Fetch(data, name, c.read.cursor[name] + 1, final.read.cursor[name] + 1)
    {
      PollAdvances(c, axis, name, polls, k, final, data);
      PollExtends(c, axis, name, polls, k, final, delivered, data);
      var step := ReadOne(ReadAll(final, polls[k]), axis, data);
      delivered := delivered + step.result.value;
      final := step.ctrl;
      k := k + 1;
    }
    assert polls[..k] == polls;
  }

  // ---------------------------------------------------------------- stop and status

  /** After an abort or stop, every axis reports On, whatever the card says. */
  lemma StopOverridesCard(c: Ctrl, axis: int, done: Completion)
    requires ChannelName(c.names, axis).Some?
    ensures StateOne(AbortAll(c).ctrl, axis, done) == Success(Status(On, ReadyMessage))
    ensures StateOne(StopAll(c).ctrl, axis, done) == Success(Status(On, ReadyMessage))
    ensures StopAll(c).calls == [StopChannels(c.run.used)]
  {
  }

  /** A burst whose armed channels have all been read to the last sample reports On once the card is done. */
  lemma FullyReadBurstIsOn(c: Ctrl, axis: int, done: Completion)
    requires ChannelName(c.names, axis).Some? && done(ChannelName(c.names, axis).value)
    requires forall n :: n in c.read.cursor ==> c.read.cursor[n] + 1 >= c.run.samples
    ensures StateOne(c, axis, done) == Success(Status(On, ReadyMessage))
  {
  }

  // ---------------------------------------------------------------- extra attributes

  /** Writing an extra attribute and reading it back returns the value written, whatever the case of its name. */
  lemma SetThenGet(c: Ctrl, axis: int, parameter: string, v: ParValue)
    requires Fits(Lower(parameter), v) && Lower(parameter) in ExtraKeys
    requires SetAxisExtraPar(c, axis, parameter, v).Success?
    ensures GetAxisExtraPar(SetAxisExtraPar(c, axis, parameter, v).value, axis, parameter) == Success(Some(v))
  {
  }

  /**
    A write under one spelling is read back under any other spelling with the
    same lower-case form, and the channel's other attributes read as before.
   */
  lemma SetThenGetAnyCase(c: Ctrl, axis: int, p: string, q: string, v: ParValue)
    requires Fits(Lower(p), v) && Lower(p) in ExtraKeys
    requires SetAxisExtraPar(c, axis, p, v).Success?
    ensures var d := SetAxisExtraPar(c, axis, p, v).value;
      && (Lower(q) == Lower(p) ==> GetAxisExtraPar(d, axis, q) == Success(Some(v)))
      && (Lower(q) != Lower(p) ==> GetAxisExtraPar(d, axis, q) == GetAxisExtraPar(c, axis, q))
  {
  }

  /** An added axis reads the default attributes: no capture, start 0, formula `start + pos`. */
  lemma AddedAxisDefaults(c: Ctrl, axis: int)
    requires AddDevice(c, axis).Success?
    ensures var d := AddDevice(c, axis).value;
      && GetAxisExtraPar(d, axis, CaptureKey) == Success(Some(Flag(false)))
      && GetAxisExtraPar(d, axis, StartKey) == Success(Some(Number(0)))
      && GetAxisExtraPar(d, axis, FormulaKey) == Success(Some(Text(DefaultFormula)))
  {
    LowerKeeps(CaptureKey);
    LowerKeeps(StartKey);
    LowerKeeps(FormulaKey);
  }
}

=== FILE: remote.dfy ===
/**
  The remote NI660X counter service, seen from the controller as a pure
  oracle: every query is answered from a snapshot that the caller passes in
  (for `get_samples_readies`, the answers for the armed channels in order),
  and every command is recorded in a trace instead of being executed.
 */
module Remote {

  /** `is_channel_done(name)`. */
  type Completion = string -> bool

  /** The acquisition buffer: sample `i` of channel `name`. */
  type Samples = (string, int) -> int

  /** A command the controller issues to the service. */
  datatype Call =
    | SetChannelsEnabled(channels: seq<string>, enabled: bool)
    | StopChannels(channels: seq<string>)
    | StartChannels(channels: seq<string>, samples: int, highTime: int)

  /** `get_channel_data(name, lo, hi)`: the samples of the half-open index range `[lo, hi)`. */
  function Fetch(data: Samples, name: string, lo: int, hi: int): (r: seq<int>)
    requires lo <= hi
    ensures |r| == hi - lo
    ensures forall i :: 0 <= i < |r| ==> r[i] == data(name, lo + i)
    decreases hi - lo
  {
    if lo == hi then [] else [data(name, lo)] + Fetch(data, name, lo + 1, hi)
  }

  /** Two adjacent ranges fetched one after the other are the fetch of their union. */
  lemma FetchAdjacent(data: Samples, name: string, a: int, b: int, c: int)
    requires a <= b <= c
    ensures Fetch(data, name, a, b) + Fetch(data, name, b, c) == Fetch(data, name, a, c)
  {
  }
}

=== FILE: wrappers.dfy ===
/** Failure-carrying wrappers shared by the controller model. */
module Wrappers {

  /** A value that may be absent (Python's `None`). */
  datatype Option<+T> = None | Some(value: T)

  /** Either a value or the error the source would raise instead. */
  datatype Result<+R, +E> = Success(value: R) | Failure(error: E)
}
